=== FILE: README.md ===
# Script registration (`lowtone-scripts`), modelled in Dafny

The model covers `register($path, $dependencies, $version, $footer)`. This WordPress helper registers JavaScript files with the host's script registry.

- **Regular file.** The file is registered under a *handle*: its base name with `.js` removed, then with `.min` removed if present. Its URL is the site URL of its content-relative path, with every run of `/` and `\` collapsed to one `/`. The call returns the handle.
- **Minified copy in debug mode.** A minified copy (`foo.min.js`) is refused when script debug mode is on and its handle is already registered. The call returns `false` and nothing is registered.
- **Directory.** Every regular file matching `*.js` is registered, one by one. Each file gets metadata resolved under its file key (its base name without `.js` and `.min`). The handles of the files that were not refused are collected, duplicates are dropped keeping first occurrences (`array_unique`), and that list is returned.
- **Anything else.** The result is `NULL`.

The three metadata arguments can each be a single value for every file, or a map from file key to value:
- dependencies are per-file when their first entry is itself an array;
- the version and footer flag are per-file when they are arrays.

The model is a set of pure functions. The filesystem is a map from paths to `Dir(listing) | File | Missing`. The host's two path helpers (`File::relPath`, `site_url`) are opaque functions in a `Site`. The host's registry is a `Host`: the registered handles, the debug flag, and the log of `wp_register_script` calls made so far.

Modules:
- `Paths` (paths.dfy): PHP's `basename`, with and without a suffix.
- `Separators` (separators.dfy): the separator normalisation of the URL path.
- `Metadata` (metadata.dfy): the metadata arguments and their per-file resolution.
- `Distinct` (distinct.dfy): `array_unique` on a list.
- `Sequences` (sequences.dfy): a filter-and-map over a listing.
- `Registrar` (registrar.dfy): handles, single-file and directory registration.
- `RegistrarProperties` (properties.dfy): the properties of registration.

Where the documentation and the code differ, the model follows the code:
- The doc comment promises `TRUE` for a registered single file, but the code returns the handle string (`Outcome.Handle`).
- The per-file tests are not uniform. Dependencies are per-file when their first element (`reset`) is an array, at line 55. The version and footer are per-file when they are arrays themselves, at lines 56-57. Both tests are modelled as written.

## Model

| member | source | states |
|---|---|---|
| Paths.StripSuffix | lowtone-scripts.php:127 | The suffix is removed only when the name ends with it and is strictly longer than it. Otherwise the name is kept whole, so `.js` stays `.js`. |
| Paths.StripAppended | lowtone-scripts.php:127 | A non-empty stem followed by a suffix loses exactly that suffix. |
| Paths.BaseNameOfChild | lowtone-scripts.php:59 | The base name of `dir/name`, the path glob yields for a listed name, is `name`. |
| Separators.CollapseSeparators | lowtone-scripts.php:125 | The normalised path has no `\` and no doubled `/`. It is empty exactly when the input is. It starts with `/` exactly when the input starts with a separator. |
| Separators.CollapseKeepsPlain | lowtone-scripts.php:125 | Normalisation keeps every non-separator character, in order. |
| Separators.CollapseFixpointIff | lowtone-scripts.php:125 | A path is left unchanged exactly when it is already normal. |
| Separators.CollapseIdempotent | lowtone-scripts.php:125 | Normalising twice is normalising once. |
| Separators.CollapseIsSqueezedSlashes | lowtone-scripts.php:125 | Normalisation equals an independent two-pass reading: turn every `\` into `/`, then drop every `/` that follows a `/`. So a run of separators between two plain characters becomes exactly one `/`. |
| Metadata.ClassifyDependencies | lowtone-scripts.php:55 | Dependencies are per-file exactly when their first entry is a list. The global form is the argument unchanged. The per-file map has a key exactly for the keys the entries write. |
| Metadata.KeysWritten | lowtone-scripts.php:79-80 | Every key of the per-file map was written by an entry, and its value is that entry's handle list. |
| Metadata.PerFileLookup | lowtone-scripts.php:77-80 | In per-file form, a file gets the handles of the last entry written for its key. It gets none when its key is not written. |
| Metadata.LastEntryWins | lowtone-scripts.php:79-80 | The map value for a key comes from the last entry that writes that key. |
| Metadata.EmptyDependenciesAreGlobal | lowtone-scripts.php:47-55 | The default empty dependencies array is global, so every file gets no dependencies. |
| Distinct.Unique | lowtone-scripts.php:116 | The result has no duplicates and holds exactly the elements of the input. |
| Distinct.UniqueInFirstOccurrenceOrder | lowtone-scripts.php:116 | The surviving elements are ordered by their first occurrence in the input. |
| Distinct.UniqueOfDistinct | lowtone-scripts.php:116 | A list without duplicates is returned unchanged. |
| Distinct.UniqueIdempotent | lowtone-scripts.php:116 | Removing duplicates twice is removing them once. |
| Distinct.UniqueKeepsFirst | lowtone-scripts.php:116 | The first element of the input is the first element of the result. |
| Registrar.HandleOf | lowtone-scripts.php:127-130 | The handle has no `/`. It is the script name, or the script name minus `.min` for a minified copy. A minified script named exactly `.min` keeps that name, because `basename` strips a suffix only from a strictly longer name. |
| Registrar.RegisterFile | lowtone-scripts.php:122-139 | A file is refused exactly when debug mode is on, it is minified, and its handle is registered; a refusal changes nothing. Otherwise one call registers the handle with the normalised URL and the metadata as given, and the handle is returned. |
| Registrar.Register | lowtone-scripts.php:47-143 | A missing path yields `NULL` and changes nothing. A file yields a handle or a refusal. A directory yields a list without duplicates. The debug flag never changes. |
| Registrar.RegisterEach | lowtone-scripts.php:59-114 | The registry afterwards holds exactly the handles it held before plus the collected ones. |
| RegistrarProperties.KeyMatchesHandle | lowtone-scripts.php:70 | The key a file's metadata is looked up under is the handle it is registered under (lines 127-130). |
| RegistrarProperties.PlainScriptHandle | lowtone-scripts.php:127-129 | `stem.js` is not minified and is registered under `stem`. |
| RegistrarProperties.MinifiedScriptHandle | lowtone-scripts.php:127-130 | `stem.min.js` is minified and is registered under `stem`. |
| RegistrarProperties.CopiesShareHandle | lowtone-scripts.php:127-130 | A script and its minified copy share one handle. |
| RegistrarProperties.SingleFile | lowtone-scripts.php:122-139 | Registering a regular file is refused exactly under the debug shadowing rule. Otherwise it makes exactly one registration call. |
| RegistrarProperties.PlainFileNeverFails | lowtone-scripts.php:129-139 | A non-minified file is always registered, under its script name. |
| RegistrarProperties.NoDebugNeverFails | lowtone-scripts.php:132-139 | Outside debug mode every file, minified or not, is registered under its handle. |
| RegistrarProperties.RegisterTwiceNoDebug | lowtone-scripts.php:122-139 | Outside debug mode, registering a file twice returns the same handle both times, and the second call adds no handle. |
| RegistrarProperties.MinifiedTwiceInDebug | lowtone-scripts.php:129-133 | In debug mode a second registration of a minified file is refused and changes nothing. |
| RegistrarProperties.RegisteredUrl | lowtone-scripts.php:123-125 | The URL is the site URL of the relative path with separators normalised and every other character kept. A path that is already normal is passed on unchanged. |
| RegistrarProperties.EntriesOfEligible | lowtone-scripts.php:59-61 | Directory mode visits exactly the listed names that match `*.js` and are regular files. |
| RegistrarProperties.EachReportsAdmitted | lowtone-scripts.php:109-112 | A handle is collected exactly when some visited file has it and is not refused against the registry as it was before the directory call. |
| RegistrarProperties.EachRecordsCalls | lowtone-scripts.php:73-112 | The calls made are appended, in order, one per collected handle, each with the metadata resolved under that handle. |
| RegistrarProperties.Directory | lowtone-scripts.php:52-116 | A directory returns distinct handles: exactly those of its regular `.js` files that debug mode does not shadow. The registry grows by exactly those handles. |
| RegistrarProperties.DirectoryNoDebug | lowtone-scripts.php:52-116 | Outside debug mode a directory returns exactly the handles of its regular `.js` files, each once. |
| RegistrarProperties.DirectoryMetadata | lowtone-scripts.php:73-112 | Every call a directory makes carries the dependencies, version and footer resolved under the handle it registers. Every returned handle was registered by one of these calls. |
| RegistrarProperties.DirectoryVisitsFile | lowtone-scripts.php:109 | The step directory mode takes for an eligible file is exactly what registering that file's path on its own yields, with the same metadata. |
| RegistrarProperties.DirectoryCallUrls | lowtone-scripts.php:59-112 | Each call a directory makes registers one listed regular `.js` file, under that file's handle and with that file's URL (line 125). The calls made before are kept. |
| RegistrarProperties.DirectoryPerFileDependencies | lowtone-scripts.php:77-83 | With per-file dependencies for one key, that file gets the key's handles and every other file gets none. |
| RegistrarProperties.DirectoryVersionAndFooter | lowtone-scripts.php:87-107 | Each file gets the version and footer flag listed under its handle, or `false` when the map lacks its handle. A single value is given to every file. |
| RegistrarProperties.EmptyDirectory | lowtone-scripts.php:52-53 | A directory without regular `.js` files returns an empty list, not `NULL`, and changes nothing. |
| RegistrarProperties.ScriptAndMinifiedCopy | lowtone-scripts.php:59-116 | For `stem.js` followed by `stem.min.js` in debug mode, with `stem` not yet registered, the result is `[stem]` from exactly one registration call. |

## Left out

- Directory listing: the listing of a directory is given, in the order `glob` returns it. Sorting and enumeration order are not modelled. The `*.js` pattern is modelled as "ends in `.js` and does not start with `.`"; other glob metacharacters in the directory path, and `glob` returning `false`, are not modelled.
- `Version`: it holds only `false` (`Unversioned`) or a string tag. PHP accepts any scalar, and the tag is only passed through to the host.
- Dependencies: a per-file dependency value is a list of handles only. In per-file mode, list-form entries (those without a file key) are ignored. PHP would give them integer keys, and a file named `0.js` could then match one. Neither is modelled.
- `isset`: `isset` on an entry whose value is `null` (treated as absent by PHP) is not modelled, because the model's maps hold no null values.
- `array_unique`: the keys it preserves, which leave gaps in the returned array, are not modelled. The result is a plain list in first-occurrence order.
- `Site`: `File::relPath` and `site_url` are uninterpreted fields. Only the separator normalisation between them is modelled.
- `Host.calls`: the log of `wp_register_script` calls. WordPress's own behaviour is not modelled, for example its refusal to overwrite a handle that is already registered. The model adds every handle it registers to `registered`.
- `wp_script_is` and `Util::isScriptDebug`: they are the `registered` set and the `debug` flag of `Host`, read at the moment of the call.
- `basename`: backslash as a separator is not modelled, nor locale-dependent behaviour. The model treats only `/` as a separator, as PHP does on non-Windows systems.
- The `$__filename` memoisation: it is not modelled, because it recomputes the same value. The file key is a pure function of the path.

=== FILE: distinct.dfy ===
/** Duplicate removal keeping the first occurrence of each element, as PHP's `array_unique`. */
module Distinct {

  /** No element of `s` occurs twice. */
  predicate NoDuplicates<T(==)>(s: seq<T>) {
    forall i, j | 0 <= i < j < |s| :: s[i] != s[j]
  }

  /** The position of the first occurrence of `x` in `s`. */
  function FirstIndex<T(==)>(s: seq<T>, x: T): (i: nat)
    requires x in s
    ensures i < |s| && s[i] == x
  {
    if s[0] == x then 0 else 1 + FirstIndex(s[1..], x)
  }

  /** No occurrence of `x` comes before its first one. */
  lemma {:induction false} FirstIndexIsFirst<T>(s: seq<T>, x: T, k: nat)
    requires x in s && k < |s| && s[k] == x
    ensures FirstIndex(s, x) <= k
    decreases |s|
  {
    if s[0] != x {
      assert s[1..][k - 1] == x;
      FirstIndexIsFirst(s[1..], x, k - 1);
    }
  }

  /** Within a prefix that holds `x`, the first occurrence of `x` is where it is in the whole. */
  lemma FirstIndexInPrefix<T>(s: seq<T>, n: nat, x: T)
    requires n <= |s| && x in s[..n]
    ensures FirstIndex(s, x) == FirstIndex(s[..n], x)
  {
    var i := FirstIndex(s[..n], x);
    assert s[i] == x;
    FirstIndexIsFirst(s, x, i);
    var j := FirstIndex(s, x);
    assert s[..n][j] == x;
    FirstIndexIsFirst(s[..n], x, j);
  }

  /** `s` with every element after its first occurrence removed, order kept. */
  function Unique<T(==)>(s: seq<T>): (r: seq<T>)
    ensures NoDuplicates(r)
    ensures forall x | x in r :: x in s
    ensures forall x | x in s :: x in r
    ensures |r| <= |s|
  {
    if s == [] then []
    else
      var init := Unique(s[..|s| - 1]);
      var last := s[|s| - 1];
      assert s == s[..|s| - 1] + [last];
      if last in init then init else init + [last]
  }

  /**
   * The elements that survive are ordered by where they first occur in
   * `s`; with the membership and distinctness `Unique` ensures, this
   * pins its result down completely.
   */
  lemma {:induction false} UniqueInFirstOccurrenceOrder<T>(s: seq<T>)
    ensures forall i, j | 0 <= i < j < |Unique(s)| :: FirstIndex(s, Unique(s)[i]) < FirstIndex(s, Unique(s)[j])
    decreases |s|
  {
    if s != [] {
      var init := s[..|s| - 1];
      var last := s[|s| - 1];
      var prev := Unique(init);
      UniqueInFirstOccurrenceOrder(init);
      assert forall x | x in init :: x in s;
      OrderInPrefix(s, init, prev);
      if last !in prev {
        assert FirstIndex(s, last) == |s| - 1 by {
          FirstIndexIsFirst(s, last, |s| - 1);
        }
        OrderAfterAppend(s, prev, last);
      }
    }
  }

  /** Order by first occurrence in `init` is order by first occurrence in any extension of it. */
  lemma OrderInPrefix<T>(s: seq<T>, init: seq<T>, prev: seq<T>)
    requires |s| > 0 && init == s[..|s| - 1]
    requires forall x | x in prev :: x in init && x in s
    requires forall i, j | 0 <= i < j < |prev| :: FirstIndex(init, prev[i]) < FirstIndex(init, prev[j])
    ensures forall i | 0 <= i < |prev| :: FirstIndex(s, prev[i]) < |s| - 1
    ensures forall i, j | 0 <= i < j < |prev| :: FirstIndex(s, prev[i]) < FirstIndex(s, prev[j])
  {
    forall i | 0 <= i < |prev|
      ensures FirstIndex(s, prev[i]) == FirstIndex(init, prev[i])
    {
      FirstIndexInPrefix(s, |s| - 1, prev[i]);
    }
  }

  /** Appending an element whose first occurrence comes after all others keeps the order. */
  lemma OrderAfterAppend<T>(s: seq<T>, prev: seq<T>, last: T)
    requires last in s && forall x | x in prev :: x in s
    requires forall i | 0 <= i < |prev| :: FirstIndex(s, prev[i]) < FirstIndex(s, last)
    requires forall i, j | 0 <= i < j < |prev| :: FirstIndex(s, prev[i]) < FirstIndex(s, prev[j])
    ensures var r := prev + [last];
      forall i, j | 0 <= i < j < |r| :: FirstIndex(s, r[i]) < FirstIndex(s, r[j])
  {
    var r := prev + [last];
    forall i, j | 0 <= i < j < |r|
      ensures FirstIndex(s, r[i]) < FirstIndex(s, r[j])
    {
      assert r[i] == prev[i];
      if j < |prev| {
        assert r[j] == prev[j];
      }
    }
  }

  /** A sequence without duplicates is left unchanged. */
  lemma {:induction false} UniqueOfDistinct<T>(s: seq<T>)
    requires NoDuplicates(s)
    ensures Unique(s) == s
    decreases |s|
  {
    if s != [] {
      var init := s[..|s| - 1];
      var last := s[|s| - 1];
      assert NoDuplicates(init) by {
        assert forall i | 0 <= i < |init| :: init[i] == s[i];
      }
      UniqueOfDistinct(init);
      assert last !in init by {
        assert forall i | 0 <= i < |init| :: init[i] == s[i];
      }
      UniqueSnoc(init, last);
      assert s == init + [last];
    }
  }

  /** Appending an element: it is kept exactly when it is new. */
  lemma UniqueSnoc<T>(init: seq<T>, last: T)
    ensures Unique(init + [last]) == if last in Unique(init) then Unique(init) else Unique(init) + [last]
  {
    var s := init + [last];
    assert s[..|s| - 1] == init;
  }

  /** Removing duplicates twice is removing them once. */
  lemma UniqueIdempotent<T>(s: seq<T>)
    ensures Unique(Unique(s)) == Unique(s)
  {
    UniqueOfDistinct(Unique(s));
  }

  /** The first element survives: its first occurrence is at the front. */
  lemma {:induction false} UniqueKeepsFirst<T>(s: seq<T>)
    requires |s| > 0
    ensures |Unique(s)| > 0 && Unique(s)[0] == s[0]
    decreases |s|
  {
    if |s| > 1 {
      var init := s[..|s| - 1];
      UniqueKeepsFirst(init);
      assert init[0] == s[0];
    }
  }
}

=== FILE: metadata.dfy ===
/**
 * The metadata arguments of a registration (dependencies, version, footer
 * flag): each is one value for every file or a map from file key to value.
 */
module Metadata {

  /** A metadata argument: one value for all files, or a value per file key. */
  datatype Meta<T> = Global(value: T) | PerFile(entries: map<string, T>)

  /** A script version; `Unversioned` is the `false` default. */
  datatype Version = Unversioned | Version(tag: string)

  /**
   * One entry of the dependencies array as the caller writes it: a handle
   * name (list form) or a file key with that file's own handle list
   * (per-file form).
   */
  datatype DepEntry = Dep(handle: string) | FileDeps(key: string, handles: seq<string>)

  /** The dependencies argument, in the caller's order. */
  type Dependencies = seq<DepEntry>

  /** The value a file with key `key` gets from `m`; `absent` when a per-file map has no entry for it. */
  function Resolve<T>(m: Meta<T>, key: string, absent: T): T {
    match m
    case Global(v) => v
    case PerFile(entries) => if key in entries then entries[key] else absent
  }

  /** A plain handle list written as a dependencies array. */
  function AsDependencies(handles: seq<string>): (d: Dependencies)
    ensures |d| == |handles|
    ensures forall i | 0 <= i < |d| :: d[i] == Dep(handles[i])
  {
    if handles == [] then [] else [Dep(handles[0])] + AsDependencies(handles[1..])
  }

  /**
   * The per-file entries of a dependencies array as a map; when a key is
   * written twice the later entry wins, as in a PHP array literal.
   */
  function KeyedDependencies(arg: Dependencies): (m: map<string, Dependencies>)
    ensures forall i | 0 <= i < |arg| && arg[i].FileDeps? :: arg[i].key in m
  {
    if arg == [] then map[]
    else
      var init := arg[..|arg| - 1];
      var m := KeyedDependencies(init);
      assert forall i | 0 <= i < |init| :: init[i] == arg[i];
      match arg[|arg| - 1]
      case Dep(_) => m
      case FileDeps(k, hs) => m[k := AsDependencies(hs)]
  }

  /** The dependencies argument is per-file exactly when its first entry is itself a list. */
  predicate PerFileDependencies(arg: Dependencies) {
    |arg| > 0 && arg[0].FileDeps?
  }

  /** The dependencies argument read as a `Meta`: a keyed map in per-file form, the whole array otherwise. */
  function ClassifyDependencies(arg: Dependencies): (m: Meta<Dependencies>)
    ensures m.PerFile? <==> |arg| > 0 && arg[0].FileDeps?
    ensures m.Global? ==> m.value == arg
    ensures m.PerFile? ==> forall i | 0 <= i < |arg| && arg[i].FileDeps? :: arg[i].key in m.entries
    ensures m.PerFile? ==> forall k | k in m.entries :: exists i | 0 <= i < |arg| :: arg[i].FileDeps? && arg[i].key == k
  {
    KeysWritten(arg);
    if PerFileDependencies(arg) then PerFile(KeyedDependencies(arg)) else Global(arg)
  }

  /** Every key of the per-file map was written by some entry, and its value is that of one such entry. */
  lemma {:induction false} KeysWritten(arg: Dependencies)
    ensures forall k | k in KeyedDependencies(arg) ::
      exists i | 0 <= i < |arg| :: arg[i].FileDeps? && arg[i].key == k && KeyedDependencies(arg)[k] == AsDependencies(arg[i].handles)
    decreases |arg|
  {
    if arg != [] {
      var init := arg[..|arg| - 1];
      var last := arg[|arg| - 1];
      KeysWritten(init);
      var m := KeyedDependencies(arg);
      assert m == if last.FileDeps? then KeyedDependencies(init)[last.key := AsDependencies(last.handles)] else KeyedDependencies(init);
      forall k | k in m
        ensures exists i | 0 <= i < |arg| :: arg[i].FileDeps? && arg[i].key == k && m[k] == AsDependencies(arg[i].handles)
      {
        if last.FileDeps? && k == last.key {
          assert arg[|arg| - 1] == last;
        } else {
          var i :| 0 <= i < |init| && init[i].FileDeps? && init[i].key == k && KeyedDependencies(init)[k] == AsDependencies(init[i].handles);
          assert arg[i] == init[i];
        }
      }
    }
  }

  /**
   * An empty dependencies array is global, so every file gets no
   * dependencies, whatever its key.
   */
  lemma EmptyDependenciesAreGlobal(key: string)
    ensures ClassifyDependencies([]) == Global([])
    ensures Resolve(ClassifyDependencies([]), key, []) == []
  {
  }

  /**
   * In per-file form a file whose key is listed gets exactly the handles
   * of the last entry for that key; a file whose key is not listed gets
   * none.
   */
  lemma PerFileLookup(arg: Dependencies, key: string)
    requires PerFileDependencies(arg)
    ensures var d := Resolve(ClassifyDependencies(arg), key, []);
      (forall i | 0 <= i < |arg| :: !(arg[i].FileDeps? && arg[i].key == key)) ==> d == []
    ensures var d := Resolve(ClassifyDependencies(arg), key, []);
      forall i | 0 <= i < |arg| && arg[i].FileDeps? && arg[i].key == key ::
        (forall j | i < j < |arg| :: !(arg[j].FileDeps? && arg[j].key == key)) ==> d == AsDependencies(arg[i].handles)
  {
    var m := KeyedDependencies(arg);
    forall i | 0 <= i < |arg| && arg[i].FileDeps? && arg[i].key == key &&
      (forall j | i < j < |arg| :: !(arg[j].FileDeps? && arg[j].key == key))
      ensures m[key] == AsDependencies(arg[i].handles)
    {
      LastEntryWins(arg, i);
    }
  }

  /** The map entry for a key comes from the last entry written for it. */
  lemma {:induction false} LastEntryWins(arg: Dependencies, i: nat)
    requires i < |arg| && arg[i].FileDeps?
    requires forall j | i < j < |arg| :: !(arg[j].FileDeps? && arg[j].key == arg[i].key)
    ensures KeyedDependencies(arg)[arg[i].key] == AsDependencies(arg[i].handles)
    decreases |arg|
  {
    var init := arg[..|arg| - 1];
    var last := arg[|arg| - 1];
    if i < |arg| - 1 {
      assert init[i] == arg[i];
      assert forall j | i < j < |init| :: init[j] == arg[j];
      LastEntryWins(init, i);
      assert !(last.FileDeps? && last.key == arg[i].key);
    }
    assert KeyedDependencies(arg) ==
      if last.FileDeps? then KeyedDependencies(init)[last.key := AsDependencies(last.handles)] else KeyedDependencies(init);
  }
}

=== FILE: paths.dfy ===
/** Path and file-name helpers with the semantics of PHP's `basename`. */
module Paths {

  /** `s` ends with `suffix`. */
  predicate EndsWith(s: string, suffix: string) {
    |suffix| <= |s| && s[|s| - |suffix|..] == suffix
  }

  /** `p` with every trailing '/' removed. */
  function TrimTrailingSlashes(p: string): (r: string)
    ensures r <= p
    ensures r == [] || r[|r| - 1] != '/'
  {
    if |p| > 0 && p[|p| - 1] == '/' then TrimTrailingSlashes(p[..|p| - 1]) else p
  }

  /** The longest suffix of `p` that holds no '/'. */
  function AfterLastSlash(p: string): (r: string)
    ensures '/' !in r
    ensures |r| <= |p| && p[|p| - |r|..] == r
    ensures |r| < |p| ==> p[|p| - |r| - 1] == '/'
  {
    if |p| == 0 || p[|p| - 1] == '/' then []
    else
      var init := p[..|p| - 1];
      var r := AfterLastSlash(init) + [p[|p| - 1]];
      assert p == init + [p[|p| - 1]];
      r
  }

  /** PHP's `basename($p)`: the last component of `p`, trailing '/' ignored. */
  function BaseName(p: string): (r: string)
    ensures '/' !in r
  {
    AfterLastSlash(TrimTrailingSlashes(p))
  }

  /**
   * The suffix rule of PHP's `basename($p, $suffix)`: `suffix` is removed
   * only when `name` ends with it AND is strictly longer than it, so a
   * name equal to the suffix is kept whole.
   */
  function StripSuffix(name: string, suffix: string): (r: string)
    ensures r <= name
    ensures r == name || (|r| > 0 && r + suffix == name)
    ensures |suffix| < |name| && EndsWith(name, suffix) ==> r + suffix == name
    ensures r != name ==> EndsWith(name, suffix)
  {
    if |suffix| < |name| && EndsWith(name, suffix) then
      var r := name[..|name| - |suffix|];
      assert name == r + name[|name| - |suffix|..];
      r
    else name
  }

  /** A non-empty name followed by a suffix loses exactly that suffix. */
  lemma StripAppended(stem: string, suffix: string)
    requires |stem| > 0
    ensures StripSuffix(stem + suffix, suffix) == stem
  {
    var name := stem + suffix;
    assert name[|name| - |suffix|..] == suffix;
    assert name[..|name| - |suffix|] == stem;
  }

  /** PHP's `basename($p, $suffix)`. */
  function BaseNameWithout(p: string, suffix: string): (r: string)
    ensures '/' !in r
  {
    StripSuffix(BaseName(p), suffix)
  }

  /** A name without '/' is its own base name. */
  lemma BaseNameOfName(n: string)
    requires '/' !in n
    ensures BaseName(n) == n
  {
    assert TrimTrailingSlashes(n) == n;
  }

  /** A name without '/' that does not end with `suffix` is its own `basename($n, $suffix)`. */
  lemma NameWithoutAbsentSuffix(n: string, suffix: string)
    requires '/' !in n && !EndsWith(n, suffix)
    ensures BaseNameWithout(n, suffix) == n
  {
    BaseNameOfName(n);
  }

  /** The base name of `dir/name` is `name` when `name` is a non-empty name without '/'. */
  lemma BaseNameOfChild(dir: string, name: string)
    requires '/' !in name && |name| > 0
    ensures BaseName(dir + "/" + name) == name
  {
    var p := dir + "/" + name;
    assert p[|p| - 1] == name[|name| - 1];
    assert TrimTrailingSlashes(p) == p;
    var r := AfterLastSlash(p);
    assert p[|p| - |name| - 1] == '/';
    assert |r| == |name|;
    assert r == p[|p| - |name|..] == name;
  }
}

=== FILE: properties.dfy ===
/** Properties of script registration, single-file and directory mode. */
module RegistrarProperties {
  import opened Paths
  import opened Separators
  import opened Metadata
  import opened Distinct
  import opened Registrar
  import opened Sequences

  // ---------------------------------------------------------------------
  // Handles
  // ---------------------------------------------------------------------

  /**
   * The key directory mode uses to look a file up in per-file metadata is
   * the handle the file is registered under.
   */
  lemma KeyMatchesHandle(file: string)
    ensures FileKey(file) == HandleOf(file)
  {
    var n := ScriptName(file);
    assert FileKey(file) == BaseNameWithout(n, ".min");
    if !Minified(file) {
      NameWithoutAbsentSuffix(n, ".min");
    }
  }

  /** `stem.js` is registered under `stem`. */
  lemma PlainScriptHandle(path: string, stem: string)
    requires BaseName(path) == stem + ".js"
    requires |stem| > 0 && !EndsWith(stem, ".min")
    ensures !Minified(path)
    ensures HandleOf(path) == stem
  {
    PlainScriptName(path, stem);
  }

  /** The script name of `stem.js` is `stem`. */
  lemma PlainScriptName(path: string, stem: string)
    requires BaseName(path) == stem + ".js" && |stem| > 0
    ensures ScriptName(path) == stem
  {
    StripAppended(stem, ".js");
  }

  /** `stem.min.js` is a minified copy registered under `stem`. */
  lemma MinifiedScriptHandle(path: string, stem: string)
    requires BaseName(path) == stem + ".min.js"
    requires |stem| > 0
    ensures Minified(path)
    ensures HandleOf(path) == stem
  {
    var m := stem + ".min";
    MinifiedScriptName(path, stem);
    assert Minified(path) by {
      assert m[|m| - 4..] == ".min";
    }
    var h := HandleOf(path);
    assert h + ".min" == m;
    assert h == (h + ".min")[..|h|] == m[..|stem|] == stem;
  }

  /** The script name of `stem.min.js` is `stem.min`. */
  lemma MinifiedScriptName(path: string, stem: string)
    requires BaseName(path) == stem + ".min.js"
    ensures ScriptName(path) == stem + ".min"
  {
    assert stem + ".min.js" == (stem + ".min") + ".js";
    StripAppended(stem + ".min", ".js");
  }

  /** A script and its minified copy share one handle. */
  lemma CopiesShareHandle(plain: string, minified: string, stem: string)
    requires BaseName(plain) == stem + ".js" && BaseName(minified) == stem + ".min.js"
    requires |stem| > 0 && !EndsWith(stem, ".min")
    ensures HandleOf(plain) == HandleOf(minified) == stem
  {
    PlainScriptHandle(plain, stem);
    MinifiedScriptHandle(minified, stem);
  }

  // ---------------------------------------------------------------------
  // Single-file mode
  // ---------------------------------------------------------------------

  /**
   * A regular file is refused exactly when debug mode is on, the file is
   * a minified copy and its handle is already registered; a refusal
   * changes nothing, and otherwise the file is registered under its
   * handle, with its URL and the metadata as given, and the handle is
   * returned.
   */
  lemma SingleFile(fs: FileSystem, site: Site, host: Host, path: string,
                   deps: Dependencies, version: Meta<Version>, footer: Meta<bool>)
    requires NodeAt(fs, path).File?
    ensures var r := Register(fs, site, host, path, deps, version, footer);
      && (r.result.Fail? <==> host.debug && Minified(path) && HandleOf(path) in host.registered)
      && (r.result.Fail? ==> r.host == host)
      && (!r.result.Fail? ==>
            && r.result == Handle(HandleOf(path))
            && r.host == Host(host.registered + {HandleOf(path)}, host.debug,
                              host.calls + [Registration(HandleOf(path), ScriptUrl(site, path), deps, version, footer)]))
  {
    assert Register(fs, site, host, path, deps, version, footer) == RegisterFile(site, host, path, deps, version, footer);
  }

  /** A file that is not a minified copy is never refused: it is registered under its script name. */
  lemma PlainFileNeverFails(fs: FileSystem, site: Site, host: Host, path: string,
                            deps: Dependencies, version: Meta<Version>, footer: Meta<bool>)
    requires NodeAt(fs, path).File? && !Minified(path)
    ensures var r := Register(fs, site, host, path, deps, version, footer);
      r.result == Handle(ScriptName(path)) && r.host.registered == host.registered + {ScriptName(path)}
  {
    SingleFile(fs, site, host, path, deps, version, footer);
  }

  /** Outside debug mode every regular file, minified or not, is registered under its handle. */
  lemma NoDebugNeverFails(fs: FileSystem, site: Site, host: Host, path: string,
                          deps: Dependencies, version: Meta<Version>, footer: Meta<bool>)
    requires NodeAt(fs, path).File? && !host.debug
    ensures var r := Register(fs, site, host, path, deps, version, footer);
      r.result == Handle(HandleOf(path)) && r.host.registered == host.registered + {HandleOf(path)}
  {
    SingleFile(fs, site, host, path, deps, version, footer);
  }

  /**
   * Outside debug mode registering the same file twice returns the same
   * handle both times, and the second call adds no handle.
   */
  lemma RegisterTwiceNoDebug(fs: FileSystem, site: Site, host: Host, path: string,
                             deps: Dependencies, version: Meta<Version>, footer: Meta<bool>)
    requires NodeAt(fs, path).File? && !host.debug
    ensures var first := Register(fs, site, host, path, deps, version, footer);
      var second := Register(fs, site, first.host, path, deps, version, footer);
      && first.result == second.result == Handle(HandleOf(path))
      && second.host.registered == first.host.registered
  {
    var first := Register(fs, site, host, path, deps, version, footer);
    NoDebugNeverFails(fs, site, host, path, deps, version, footer);
    NoDebugNeverFails(fs, site, first.host, path, deps, version, footer);
  }

  /**
   * In debug mode a second registration of the same minified file is
   * refused, because the first one registered its handle.
   */
  lemma MinifiedTwiceInDebug(fs: FileSystem, site: Site, host: Host, path: string,
                             deps: Dependencies, version: Meta<Version>, footer: Meta<bool>)
    requires NodeAt(fs, path).File? && host.debug && Minified(path)
    ensures var first := Register(fs, site, host, path, deps, version, footer);
      var second := Register(fs, site, first.host, path, deps, version, footer);
      && second.result == Fail
      && second.host == first.host
  {
    var first := Register(fs, site, host, path, deps, version, footer);
    SingleFile(fs, site, host, path, deps, version, footer);
    SingleFile(fs, site, first.host, path, deps, version, footer);
  }

  /**
   * A file's URL is the site URL of its relative path with separators
   * normalised: no '\', no doubled '/', every other character kept in
   * order; a relative path that is already normal is passed on as it is.
   */
  lemma RegisteredUrl(site: Site, path: string)
    ensures var c := CollapseSeparators(site.relPath(path));
      && ScriptUrl(site, path) == site.siteUrl(c)
      && Collapsed(c)
      && Plain(c) == Plain(site.relPath(path))
    ensures Collapsed(site.relPath(path)) ==> ScriptUrl(site, path) == site.siteUrl(site.relPath(path))
  {
    CollapseKeepsPlain(site.relPath(path));
    CollapseFixpointIff(site.relPath(path));
  }

  // ---------------------------------------------------------------------
  // Directory mode
  // ---------------------------------------------------------------------

  /**
   * Entry `name` of `dir` contributes handle `h` for a registry `host`:
   * it is a regular `.js` file, `h` is its handle, and debug mode does
   * not shadow it.
   */
  predicate Contributes(fs: FileSystem, host: Host, dir: string, name: string, h: string) {
    && Eligible(fs, dir, name)
    && HandleOf(JsPath(dir, name)) == h
    && !Shadowed(host, JsPath(dir, name))
  }

  /** An entry whose script has handle `h` and would not be refused against `host`. */
  predicate Admitted(host: Host, e: Entry, h: string) {
    e.script.handle == h && !(e.script.minified && host.debug && h in host.registered)
  }

  /** Every entry is looked up in per-file metadata under its own handle. */
  predicate KeyedByHandle(entries: seq<Entry>) {
    forall i | 0 <= i < |entries| :: entries[i].key == entries[i].script.handle
  }

  /** The entries of a listing are the entries of its eligible names. */
  lemma EntriesOfEligible(fs: FileSystem, site: Site, dir: string, names: seq<string>)
    ensures forall e :: e in Entries(fs, site, dir, names) <==>
      exists n | n in names :: Eligible(fs, dir, n) && e == EntryOf(site, dir, n)
  {
    FilterMapMembers((n: string) => Eligible(fs, dir, n), (n: string) => EntryOf(site, dir, n), names);
  }

  /** The entries of a listing are looked up under their handles. */
  lemma EntriesKeyedByHandle(fs: FileSystem, site: Site, dir: string, names: seq<string>)
    ensures KeyedByHandle(Entries(fs, site, dir, names))
  {
    var es := Entries(fs, site, dir, names);
    EntriesOfEligible(fs, site, dir, names);
    forall i | 0 <= i < |es|
      ensures es[i].key == es[i].script.handle
    {
      assert es[i] in es;
      var n :| n in names && Eligible(fs, dir, n) && es[i] == EntryOf(site, dir, n);
      KeyMatchesHandle(JsPath(dir, n));
    }
  }

  /** The entry of a name is admitted with `h` exactly when the name, if eligible, contributes `h`. */
  lemma EntryAdmittedIff(fs: FileSystem, site: Site, host: Host, dir: string, name: string, h: string)
    requires Eligible(fs, dir, name)
    ensures Admitted(host, EntryOf(site, dir, name), h) <==> Contributes(fs, host, dir, name, h)
  {
  }

  /**
   * Directory mode registers each eligible file through a recursive
   * registration of its path: the decision on the file's entry is what
   * registering the path on its own yields, with the same metadata.
   */
  lemma DirectoryVisitsFile(fs: FileSystem, site: Site, host: Host, dir: string, name: string,
                            deps: Dependencies, version: Meta<Version>, footer: Meta<bool>)
    requires Eligible(fs, dir, name)
    ensures Admit(host, EntryOf(site, dir, name).script, deps, version, footer)
         == Register(fs, site, host, JsPath(dir, name), deps, version, footer)
  {
  }

  /** Admission of a handle other than `h0` does not depend on whether `h0` is registered. */
  lemma AdmittedStable(host: Host, h0: string, e: Entry, h: string)
    requires h != h0
    ensures Admitted(Host(host.registered + {h0}, host.debug, host.calls), e, h) <==> Admitted(host, e, h)
  {
  }

  /**
   * The handles collected over a sequence of entries are exactly the
   * handles of the entries admitted against the registry as it was before
   * the first entry: a minified copy refused in debug mode is still
   * reported when an earlier entry registered the same handle.
   */
  lemma {:induction false} EachReportsAdmitted(host: Host, entries: seq<Entry>,
                                              deps: Meta<Dependencies>, version: Meta<Version>, footer: Meta<bool>)
    ensures var r := RegisterEach(host, entries, deps, version, footer);
      forall h :: h in r.0 <==> exists e | e in entries :: Admitted(host, e, h)
    decreases |entries|
  {
    if entries != [] {
      var e0 := entries[0];
      var tail := entries[1..];
      assert entries == [e0] + tail;
      var step := Admit(host, e0.script,
                        Resolve(deps, e0.key, []),
                        Global(Resolve(version, e0.key, Unversioned)),
                        Global(Resolve(footer, e0.key, false)));
      var r := RegisterEach(host, entries, deps, version, footer);
      EachReportsAdmitted(step.host, tail, deps, version, footer);
      if step.result.Fail? {
        assert r == RegisterEach(step.host, tail, deps, version, footer) && step.host == host;
        forall h
          ensures h in r.0 <==> exists e | e in entries :: Admitted(host, e, h)
        {
          if h in r.0 {
            var e :| e in tail && Admitted(host, e, h);
            assert e in entries;
          }
          if e :| e in entries && Admitted(host, e, h) {
            assert e != e0;
            assert e in tail;
          }
        }
      } else {
        var h0 := e0.script.handle;
        var rest := RegisterEach(step.host, tail, deps, version, footer);
        assert var r' := RegisterEach(step.host, tail, deps, version, footer);
          forall h :: h in r'.0 <==> exists e | e in tail :: Admitted(step.host, e, h);
        assert r.0 == [h0] + rest.0;
        assert step.host == Host(host.registered + {h0}, host.debug, step.host.calls);
        assert Admitted(host, e0, h0);
        forall h
          ensures h in r.0 <==> exists e | e in entries :: Admitted(host, e, h)
        {
          if h == h0 {
            assert h in r.0 && e0 in entries;
          } else {
            forall e | e in entries
              ensures Admitted(step.host, e, h) <==> Admitted(host, e, h)
            {
              AdmittedStable(host, h0, e, h);
            }
            if h in r.0 {
              assert h in rest.0;
              var e :| e in tail && Admitted(step.host, e, h);
              assert e in entries;
            }
            if e :| e in entries && Admitted(host, e, h) {
              assert e != e0;
              assert e in tail;
            }
          }
        }
      }
    }
  }

  /** Every new registration call carries the metadata resolved under its own handle. */
  ghost predicate ResolvedFor(c: Registration, deps: Meta<Dependencies>, version: Meta<Version>, footer: Meta<bool>) {
    && c.deps == Resolve(deps, c.handle, [])
    && c.version == Global(Resolve(version, c.handle, Unversioned))
    && c.footer == Global(Resolve(footer, c.handle, false))
  }

  /** `calls` registers the handles `hs` in order, each with the metadata resolved under its handle. */
  ghost predicate CallsFor(calls: seq<Registration>, hs: seq<string>,
                           deps: Meta<Dependencies>, version: Meta<Version>, footer: Meta<bool>) {
    && |calls| == |hs|
    && forall i | 0 <= i < |calls| :: calls[i].handle == hs[i] && ResolvedFor(calls[i], deps, version, footer)
  }

  /**
   * Directory mode appends one registration call per collected handle, in
   * order, to the calls made before, and each call carries the metadata
   * looked up under the handle it registers.
   */
  lemma {:induction false} EachRecordsCalls(host: Host, entries: seq<Entry>,
                                           deps: Meta<Dependencies>, version: Meta<Version>, footer: Meta<bool>)
    requires KeyedByHandle(entries)
    ensures var r := RegisterEach(host, entries, deps, version, footer);
      && |host.calls| <= |r.1.calls|
      && r.1.calls[..|host.calls|] == host.calls
      && CallsFor(r.1.calls[|host.calls|..], r.0, deps, version, footer)
    decreases |entries|
  {
    if entries != [] {
      var e0 := entries[0];
      var tail := entries[1..];
      assert KeyedByHandle(tail) by {
        forall i | 0 <= i < |tail|
          ensures tail[i].key == tail[i].script.handle
        {
          assert tail[i] == entries[i + 1];
        }
      }
      var step := Admit(host, e0.script,
                        Resolve(deps, e0.key, []),
                        Global(Resolve(version, e0.key, Unversioned)),
                        Global(Resolve(footer, e0.key, false)));
      EachRecordsCalls(step.host, tail, deps, version, footer);
      if !step.result.Fail? {
        var rest := RegisterEach(step.host, tail, deps, version, footer);
        var k := |host.calls|;
        var c0 := step.host.calls[k];
        assert c0.handle == e0.key;
        assert ResolvedFor(c0, deps, version, footer);
        var r := RegisterEach(host, entries, deps, version, footer);
        assert r == ([e0.script.handle] + rest.0, rest.1);
        var suffix := rest.1.calls[k + 1..];
        PrefixSplit(rest.1.calls, step.host.calls, k);
        assert rest.1.calls[k] == c0;
        CallsForCons(c0, suffix, e0.script.handle, rest.0, deps, version, footer);
      }
    }
  }

  lemma CallsForCons(c: Registration, calls: seq<Registration>, h: string, hs: seq<string>,
                     deps: Meta<Dependencies>, version: Meta<Version>, footer: Meta<bool>)
    requires c.handle == h && ResolvedFor(c, deps, version, footer)
    requires CallsFor(calls, hs, deps, version, footer)
    ensures CallsFor([c] + calls, [h] + hs, deps, version, footer)
  {
    forall i | 0 < i < |calls| + 1
      ensures ([c] + calls)[i] == calls[i - 1] && ([h] + hs)[i] == hs[i - 1]
    {
    }
  }

  /**
   * Registering a directory returns a list of distinct handles: a handle
   * is in it exactly when some regular `.js` file of the listing has that
   * handle and is not shadowed in debug mode by a registration made before
   * the call. The registry grows by exactly those handles.
   */
  lemma Directory(fs: FileSystem, site: Site, host: Host, dir: string,
                  deps: Dependencies, version: Meta<Version>, footer: Meta<bool>)
    requires NodeAt(fs, dir).Dir?
    ensures var r := Register(fs, site, host, dir, deps, version, footer);
      && r.result.Handles?
      && NoDuplicates(r.result.names)
      && (forall h :: h in r.result.names <==> exists n | n in NodeAt(fs, dir).listing :: Contributes(fs, host, dir, n, h))
      && (forall h :: h in r.host.registered <==> h in host.registered || h in r.result.names)
      && r.host.debug == host.debug
  {
    DirectoryStep(fs, site, host, dir, deps, version, footer);
    EachReportsContributors(fs, site, host, dir, NodeAt(fs, dir).listing, ClassifyDependencies(deps), version, footer);
  }

  /** A directory is registered entry by entry, and the collected handles are made distinct. */
  lemma DirectoryStep(fs: FileSystem, site: Site, host: Host, dir: string,
                      deps: Dependencies, version: Meta<Version>, footer: Meta<bool>)
    requires NodeAt(fs, dir).Dir?
    ensures var each := RegisterEach(host, Entries(fs, site, dir, NodeAt(fs, dir).listing), ClassifyDependencies(deps), version, footer);
      Register(fs, site, host, dir, deps, version, footer) == Step(Handles(Unique(each.0)), each.1)
  {
  }

  /**
   * The handles collected over a listing are exactly the handles its
   * names contribute, judged against the registry before the first one.
   */
  lemma EachReportsContributors(fs: FileSystem, site: Site, host: Host, dir: string, listing: seq<string>,
                                deps: Meta<Dependencies>, version: Meta<Version>, footer: Meta<bool>)
    ensures var each := RegisterEach(host, Entries(fs, site, dir, listing), deps, version, footer);
      forall h :: h in each.0 <==> exists n | n in listing :: Contributes(fs, host, dir, n, h)
  {
    var entries := Entries(fs, site, dir, listing);
    EachReportsAdmitted(host, entries, deps, version, footer);
    assert var each := RegisterEach(host, entries, deps, version, footer);
      forall h :: h in each.0 <==> exists e | e in entries :: Admitted(host, e, h);
    forall h
      ensures h in RegisterEach(host, entries, deps, version, footer).0 <==> exists n | n in listing :: Contributes(fs, host, dir, n, h)
    {
      if e :| e in entries && Admitted(host, e, h) {
        ContributorOfAdmitted(fs, site, host, dir, listing, e, h);
      }
      if n :| n in listing && Contributes(fs, host, dir, n, h) {
        AdmittedOfContributor(fs, site, host, dir, listing, n, h);
      }
    }
  }

  /** An admitted entry of a listing comes from a name that contributes its handle. */
  lemma ContributorOfAdmitted(fs: FileSystem, site: Site, host: Host, dir: string, listing: seq<string>, e: Entry, h: string)
    requires e in Entries(fs, site, dir, listing) && Admitted(host, e, h)
    ensures exists n | n in listing :: Contributes(fs, host, dir, n, h)
  {
    EntriesOfEligible(fs, site, dir, listing);
    var n :| n in listing && Eligible(fs, dir, n) && e == EntryOf(site, dir, n);
    EntryAdmittedIff(fs, site, host, dir, n, h);
  }

  /** A name that contributes a handle has an entry, admitted with that handle. */
  lemma AdmittedOfContributor(fs: FileSystem, site: Site, host: Host, dir: string, listing: seq<string>, n: string, h: string)
    requires n in listing && Contributes(fs, host, dir, n, h)
    ensures EntryOf(site, dir, n) in Entries(fs, site, dir, listing) && Admitted(host, EntryOf(site, dir, n), h)
  {
    EntriesOfEligible(fs, site, dir, listing);
    EntryAdmittedIff(fs, site, host, dir, n, h);
  }

  /**
   * Outside debug mode a directory returns exactly the handles of its
   * regular `.js` files, each once.
   */
  lemma DirectoryNoDebug(fs: FileSystem, site: Site, host: Host, dir: string,
                         deps: Dependencies, version: Meta<Version>, footer: Meta<bool>)
    requires NodeAt(fs, dir).Dir? && !host.debug
    ensures var r := Register(fs, site, host, dir, deps, version, footer);
      && r.result.Handles?
      && NoDuplicates(r.result.names)
      && forall h :: h in r.result.names <==>
           exists n | n in NodeAt(fs, dir).listing :: Eligible(fs, dir, n) && HandleOf(JsPath(dir, n)) == h
  {
    Directory(fs, site, host, dir, deps, version, footer);
  }

  /**
   * Every registration call a directory makes carries the metadata
   * resolved under the handle it registers, every such handle is
   * returned, and every returned handle was registered by one of them.
   */
  lemma DirectoryMetadata(fs: FileSystem, site: Site, host: Host, dir: string,
                          deps: Dependencies, version: Meta<Version>, footer: Meta<bool>)
    requires NodeAt(fs, dir).Dir?
    ensures var r := Register(fs, site, host, dir, deps, version, footer);
      && r.result.Handles?
      && |host.calls| <= |r.host.calls|
      && r.host.calls[..|host.calls|] == host.calls
      && (forall i | |host.calls| <= i < |r.host.calls| ::
            r.host.calls[i].handle in r.result.names && ResolvedFor(r.host.calls[i], ClassifyDependencies(deps), version, footer))
      && (forall h | h in r.result.names :: exists i | |host.calls| <= i < |r.host.calls| :: r.host.calls[i].handle == h)
  {
    var entries := Entries(fs, site, dir, NodeAt(fs, dir).listing);
    DirectoryStep(fs, site, host, dir, deps, version, footer);
    EntriesKeyedByHandle(fs, site, dir, NodeAt(fs, dir).listing);
    EachCallsMatchHandles(host, entries, ClassifyDependencies(deps), version, footer);
  }

  /**
   * Each call a directory appends registers one listed regular `.js`
   * file, under that file's handle and with that file's URL.
   */
  lemma DirectoryCallUrls(fs: FileSystem, site: Site, host: Host, dir: string,
                          deps: Dependencies, version: Meta<Version>, footer: Meta<bool>)
    requires NodeAt(fs, dir).Dir?
    ensures var r := Register(fs, site, host, dir, deps, version, footer);
      && |host.calls| <= |r.host.calls|
      && r.host.calls[..|host.calls|] == host.calls
      && forall i | |host.calls| <= i < |r.host.calls| ::
           CallFromListed(fs, site, dir, NodeAt(fs, dir).listing, r.host.calls[i])
  {
    var listing := NodeAt(fs, dir).listing;
    var entries := Entries(fs, site, dir, listing);
    var m := ClassifyDependencies(deps);
    DirectoryStep(fs, site, host, dir, deps, version, footer);
    EachCallsFromEntries(host, entries, m, version, footer);
    var calls := RegisterEach(host, entries, m, version, footer).1.calls;
    forall i | |host.calls| <= i < |calls|
      ensures CallFromListed(fs, site, dir, listing, calls[i])
    {
      assert CallFromSomeEntry(calls[i], entries);
      var e :| e in entries && CallFromEntry(calls[i], e);
      FileOfEntryCall(fs, site, dir, listing, e, calls[i]);
    }
  }

  /** A call that registers the script of a listing's entry registers one of the listed files. */
  lemma FileOfEntryCall(fs: FileSystem, site: Site, dir: string, listing: seq<string>, e: Entry, c: Registration)
    requires e in Entries(fs, site, dir, listing) && CallFromEntry(c, e)
    ensures CallFromListed(fs, site, dir, listing, c)
  {
    EntriesOfEligible(fs, site, dir, listing);
    var n :| n in listing && Eligible(fs, dir, n) && e == EntryOf(site, dir, n);
    assert CallFromFile(fs, site, dir, n, c);
  }

  /** Registration call `c` registers file `name` of `dir`: an eligible file, under its handle and URL. */
  predicate CallFromFile(fs: FileSystem, site: Site, dir: string, name: string, c: Registration) {
    && Eligible(fs, dir, name)
    && c.handle == HandleOf(JsPath(dir, name))
    && c.url == ScriptUrl(site, JsPath(dir, name))
  }

  /** Registration call `c` registers one of the files named in `listing`. */
  predicate CallFromListed(fs: FileSystem, site: Site, dir: string, listing: seq<string>, c: Registration) {
    exists n | n in listing :: CallFromFile(fs, site, dir, n, c)
  }

  /** Registration call `c` registers the script of entry `e`. */
  predicate CallFromEntry(c: Registration, e: Entry) {
    c.handle == e.script.handle && c.url == e.script.url
  }

  /** Registration call `c` registers the script of one of `entries`. */
  predicate CallFromSomeEntry(c: Registration, entries: seq<Entry>) {
    exists e | e in entries :: CallFromEntry(c, e)
  }

  /**
   * Every call appended over a sequence of entries registers the script
   * of one of the entries, with that script's handle and URL.
   */
  lemma {:induction false} EachCallsFromEntries(host: Host, entries: seq<Entry>,
                                               deps: Meta<Dependencies>, version: Meta<Version>, footer: Meta<bool>)
    ensures var r := RegisterEach(host, entries, deps, version, footer);
      && |host.calls| <= |r.1.calls|
      && r.1.calls[..|host.calls|] == host.calls
      && forall i | |host.calls| <= i < |r.1.calls| :: CallFromSomeEntry(r.1.calls[i], entries)
    decreases |entries|
  {
    if entries != [] {
      var e0 := entries[0];
      var tail := entries[1..];
      var step := Admit(host, e0.script,
                        Resolve(deps, e0.key, []),
                        Global(Resolve(version, e0.key, Unversioned)),
                        Global(Resolve(footer, e0.key, false)));
      EachCallsFromEntries(step.host, tail, deps, version, footer);
      var rest := RegisterEach(step.host, tail, deps, version, footer);
      assert var r' := RegisterEach(step.host, tail, deps, version, footer);
        && |step.host.calls| <= |r'.1.calls|
        && r'.1.calls[..|step.host.calls|] == step.host.calls
        && forall i | |step.host.calls| <= i < |r'.1.calls| :: CallFromSomeEntry(r'.1.calls[i], tail);
      var k := |host.calls|;
      assert RegisterEach(host, entries, deps, version, footer).1 == rest.1;
      if !step.result.Fail? {
        PrefixSplit(rest.1.calls, step.host.calls, k);
        assert rest.1.calls[k] == step.host.calls[k];
        assert CallFromEntry(rest.1.calls[k], e0);
      }
      forall i | k <= i < |rest.1.calls|
        ensures CallFromSomeEntry(rest.1.calls[i], entries)
      {
        if i < |step.host.calls| {
          assert CallFromEntry(rest.1.calls[i], e0);
        } else {
          assert CallFromSomeEntry(rest.1.calls[i], tail);
          var e :| e in tail && CallFromEntry(rest.1.calls[i], e);
          assert e in entries;
        }
      }
    }
  }

  /**
   * The calls appended over a sequence of entries register exactly the
   * collected handles, each with the metadata resolved under it.
   */
  lemma EachCallsMatchHandles(host: Host, entries: seq<Entry>,
                              deps: Meta<Dependencies>, version: Meta<Version>, footer: Meta<bool>)
    requires KeyedByHandle(entries)
    ensures var r := RegisterEach(host, entries, deps, version, footer);
      && |host.calls| <= |r.1.calls|
      && r.1.calls[..|host.calls|] == host.calls
      && (forall i | |host.calls| <= i < |r.1.calls| :: r.1.calls[i].handle in r.0 && ResolvedFor(r.1.calls[i], deps, version, footer))
      && (forall h | h in r.0 :: exists i | |host.calls| <= i < |r.1.calls| :: r.1.calls[i].handle == h)
  {
    EachRecordsCalls(host, entries, deps, version, footer);
    var r := RegisterEach(host, entries, deps, version, footer);
    var k := |host.calls|;
    assert var r' := RegisterEach(host, entries, deps, version, footer);
      CallsFor(r'.1.calls[k..], r'.0, deps, version, footer);
    var added := r.1.calls[k..];
    forall i | k <= i < |r.1.calls|
      ensures r.1.calls[i].handle in r.0 && ResolvedFor(r.1.calls[i], deps, version, footer)
    {
      assert r.1.calls[i] == added[i - k];
    }
    forall h | h in r.0
      ensures exists i | k <= i < |r.1.calls| :: r.1.calls[i].handle == h
    {
      var j :| 0 <= j < |r.0| && r.0[j] == h;
      assert r.1.calls[k + j] == added[j];
    }
  }

  /**
   * With per-file dependencies naming one key, the file with that handle
   * gets the key's handles and every other file gets none.
   */
  lemma DirectoryPerFileDependencies(fs: FileSystem, site: Site, host: Host, dir: string,
                                     key: string, handles: seq<string>, version: Meta<Version>, footer: Meta<bool>)
    requires NodeAt(fs, dir).Dir?
    ensures var r := Register(fs, site, host, dir, [FileDeps(key, handles)], version, footer);
      forall i | |host.calls| <= i < |r.host.calls| ::
        r.host.calls[i].deps == (if r.host.calls[i].handle == key then AsDependencies(handles) else [])
  {
    var deps := [FileDeps(key, handles)];
    var m := ClassifyDependencies(deps);
    assert m == PerFile(map[key := AsDependencies(handles)]);
    DirectoryMetadata(fs, site, host, dir, deps, version, footer);
    var calls := Register(fs, site, host, dir, deps, version, footer).host.calls;
    forall i | |host.calls| <= i < |calls|
      ensures calls[i].deps == (if calls[i].handle == key then AsDependencies(handles) else [])
    {
      assert ResolvedFor(calls[i], m, version, footer);
    }
  }

  /**
   * With a per-file version map and a per-file footer map, each file is
   * registered with the version and footer flag listed under its handle,
   * and with no version and in the header when its handle is not listed;
   * with a single value every file gets that value.
   */
  lemma DirectoryVersionAndFooter(fs: FileSystem, site: Site, host: Host, dir: string,
                                  deps: Dependencies, version: Meta<Version>, footer: Meta<bool>)
    requires NodeAt(fs, dir).Dir?
    ensures var r := Register(fs, site, host, dir, deps, version, footer);
      forall i | |host.calls| <= i < |r.host.calls| ::
        var c := r.host.calls[i];
        && c.version == Global(if version.Global? then version.value
                               else if c.handle in version.entries then version.entries[c.handle] else Unversioned)
        && c.footer == Global(if footer.Global? then footer.value
                              else if c.handle in footer.entries then footer.entries[c.handle] else false)
  {
    DirectoryMetadata(fs, site, host, dir, deps, version, footer);
  }

  /**
   * A directory whose listing holds no regular `.js` file returns an empty
   * list, not `Null`, and leaves the registry as it was.
   */
  lemma EmptyDirectory(fs: FileSystem, site: Site, host: Host, dir: string,
                       deps: Dependencies, version: Meta<Version>, footer: Meta<bool>)
    requires NodeAt(fs, dir).Dir?
    requires forall n | n in NodeAt(fs, dir).listing :: !Eligible(fs, dir, n)
    ensures Register(fs, site, host, dir, deps, version, footer) == Step(Handles([]), host)
  {
    FilterMapNone((n: string) => Eligible(fs, dir, n), (n: string) => EntryOf(site, dir, n), NodeAt(fs, dir).listing);
  }

  /**
   * A directory holding `stem.js` and then `stem.min.js` reports `stem`
   * once; in debug mode, with `stem` not yet registered, the minified copy
   * is refused, so exactly one registration call is made.
   */
  lemma ScriptAndMinifiedCopy(fs: FileSystem, site: Site, host: Host, dir: string, stem: string,
                              deps: Dependencies, version: Meta<Version>, footer: Meta<bool>)
    requires |stem| > 0 && stem[0] != '.' && '/' !in stem && !EndsWith(stem, ".min")
    requires NodeAt(fs, dir) == Dir([stem + ".js", stem + ".min.js"])
    requires NodeAt(fs, JsPath(dir, stem + ".js")).File? && NodeAt(fs, JsPath(dir, stem + ".min.js")).File?
    requires host.debug && stem !in host.registered
    ensures var r := Register(fs, site, host, dir, deps, version, footer);
      r.result == Handles([stem]) && |r.host.calls| == |host.calls| + 1
  {
    var entries := Entries(fs, site, dir, [stem + ".js", stem + ".min.js"]);
    var m := ClassifyDependencies(deps);
    PairEntries(fs, site, dir, stem);
    AdmitCopyAfterScript(host, entries[0], entries[1], m, version, footer);
    assert entries == [entries[0], entries[1]];
    assert var each := RegisterEach(host, entries, m, version, footer);
      && Register(fs, site, host, dir, deps, version, footer) == Step(Handles(Unique(each.0)), each.1)
      && each.0 == [stem];
    assert Unique([stem]) == [stem];
  }

  /**
   * In debug mode an entry and then a minified entry with the same
   * unregistered handle: the first is registered, the second refused.
   */
  lemma AdmitCopyAfterScript(host: Host, plain: Entry, copy: Entry,
                             deps: Meta<Dependencies>, version: Meta<Version>, footer: Meta<bool>)
    requires host.debug && plain.script.handle !in host.registered
    requires !plain.script.minified && copy.script.minified && copy.script.handle == plain.script.handle
    ensures var r := RegisterEach(host, [plain, copy], deps, version, footer);
      r.0 == [plain.script.handle] && |r.1.calls| == |host.calls| + 1
  {
    var s1 := Admit(host, plain.script, Resolve(deps, plain.key, []),
                    Global(Resolve(version, plain.key, Unversioned)), Global(Resolve(footer, plain.key, false)));
    assert [plain, copy][1..] == [copy] && [copy][1..] == [];
    assert RegisterEach(s1.host, [copy], deps, version, footer) == ([], s1.host);
  }

  /** The entries of `stem.js` and `stem.min.js`: both eligible, both with handle `stem`, the second minified. */
  lemma PairEntries(fs: FileSystem, site: Site, dir: string, stem: string)
    requires |stem| > 0 && stem[0] != '.' && '/' !in stem && !EndsWith(stem, ".min")
    requires NodeAt(fs, JsPath(dir, stem + ".js")).File? && NodeAt(fs, JsPath(dir, stem + ".min.js")).File?
    ensures Entries(fs, site, dir, [stem + ".js", stem + ".min.js"]) == [EntryOf(site, dir, stem + ".js"), EntryOf(site, dir, stem + ".min.js")]
    ensures EntryOf(site, dir, stem + ".js").script.handle == stem && !EntryOf(site, dir, stem + ".js").script.minified
    ensures EntryOf(site, dir, stem + ".min.js").script.handle == stem && EntryOf(site, dir, stem + ".min.js").script.minified
  {
    PlainEntry(fs, site, dir, stem);
    MinifiedEntry(fs, site, dir, stem);
    FilterMapPair((n: string) => Eligible(fs, dir, n), (n: string) => EntryOf(site, dir, n), stem + ".js", stem + ".min.js");
  }

  /** `dir/stem.js` is eligible, and its entry has handle `stem` and is not minified. */
  lemma PlainEntry(fs: FileSystem, site: Site, dir: string, stem: string)
    requires |stem| > 0 && stem[0] != '.' && '/' !in stem && !EndsWith(stem, ".min")
    requires NodeAt(fs, JsPath(dir, stem + ".js")).File?
    ensures Eligible(fs, dir, stem + ".js")
    ensures EntryOf(site, dir, stem + ".js").script.handle == stem && !EntryOf(site, dir, stem + ".js").script.minified
  {
    var a := stem + ".js";
    assert '/' !in a;
    BaseNameOfChild(dir, a);
    PlainScriptHandle(JsPath(dir, a), stem);
    assert a[|a| - 3..] == ".js";
    assert a[0] == stem[0];
  }

  /** `dir/stem.min.js` is eligible, and its entry has handle `stem` and is minified. */
  lemma MinifiedEntry(fs: FileSystem, site: Site, dir: string, stem: string)
    requires |stem| > 0 && stem[0] != '.' && '/' !in stem
    requires NodeAt(fs, JsPath(dir, stem + ".min.js")).File?
    ensures Eligible(fs, dir, stem + ".min.js")
    ensures EntryOf(site, dir, stem + ".min.js").script.handle == stem && EntryOf(site, dir, stem + ".min.js").script.minified
  {
    var b := stem + ".min.js";
    assert '/' !in b;
    BaseNameOfChild(dir, b);
    MinifiedScriptHandle(JsPath(dir, b), stem);
    assert b[|b| - 3..] == ".js";
    assert b[0] == stem[0];
  }
}

=== FILE: registrar.dfy ===
/**
 * Script registration: a single `.js` file is registered under a handle
 * derived from its name; a directory registers every `.js` file in it.
 * The filesystem, the host's script registry and its debug flag, and the
 * path-to-URL helpers are explicit inputs, so registration is a pure
 * function from them to a result and the new registry.
 */
module Registrar {
  import opened Paths
  import opened Separators
  import opened Metadata
  import opened Distinct
  import opened Sequences

  /** What a path names. */
  datatype Node = Dir(listing: seq<string>) | File | Missing

  /** Paths to what they name; a path not in the map is missing. */
  type FileSystem = map<string, Node>

  function NodeAt(fs: FileSystem, path: string): Node {
    if path in fs then fs[path] else Missing
  }

  /**
   * The two host helpers that turn a file path into a URL: the path
   * relative to the content root, and the site URL of a relative path.
   */
  datatype Site = Site(relPath: string -> string, siteUrl: string -> string)

  /** One call into the host's script registration. */
  datatype Registration = Registration(
    handle: string,
    url: string,
    deps: Dependencies,
    version: Meta<Version>,
    footer: Meta<bool>)

  /** The host's script registry: handles registered so far, the script debug flag, and the calls made. */
  datatype Host = Host(registered: set<string>, debug: bool, calls: seq<Registration>)

  /**
   * The result of a registration: nothing happened (bad input), the handle
   * of a registered file, the refusal of a minified file, or the handles
   * registered from a directory.
   */
  datatype Outcome = Null | Handle(name: string) | Fail | Handles(names: seq<string>)

  datatype Step = Step(result: Outcome, host: Host)

  /** The URL a file is registered with: its relative path, separators normalised, under the site URL. */
  function ScriptUrl(site: Site, path: string): string {
    site.siteUrl(CollapseSeparators(site.relPath(path)))
  }

  /** The base name of a script with a trailing `.js` removed. */
  function ScriptName(path: string): string {
    BaseNameWithout(path, ".js")
  }

  /** The script is a minified copy: its name ends in `.min` once `.js` is removed. */
  predicate Minified(path: string) {
    EndsWith(ScriptName(path), ".min")
  }

  /** The handle of a single file: its script name with a trailing `.min` removed. */
  function HandleOf(path: string): (h: string)
    ensures '/' !in h
    ensures !Minified(path) ==> h == ScriptName(path)
    ensures Minified(path) && |ScriptName(path)| > 4 ==> h + ".min" == ScriptName(path)
    ensures Minified(path) && |ScriptName(path)| == 4 ==> h == ScriptName(path)
    ensures h == ScriptName(path) || h + ".min" == ScriptName(path)
  {
    if Minified(path) then
      BaseNameOfName(ScriptName(path));
      BaseNameWithout(ScriptName(path), ".min")
    else ScriptName(path)
  }

  /** The key under which directory mode looks a file up in per-file metadata. */
  function FileKey(file: string): string {
    BaseNameWithout(BaseNameWithout(file, ".js"), ".min")
  }

  /** In debug mode a minified file is refused when its handle is already registered. */
  predicate Shadowed(host: Host, path: string) {
    host.debug && Minified(path) && HandleOf(path) in host.registered
  }

  /** The file's name ends in `.js` and `*.js` matches it (a leading '.' is never matched by `*`). */
  predicate MatchesJsGlob(name: string) {
    EndsWith(name, ".js") && name[0] != '.'
  }

  function JsPath(dir: string, name: string): string {
    dir + "/" + name
  }

  /** A directory entry that directory mode registers: a regular file matching `*.js`. */
  predicate Eligible(fs: FileSystem, dir: string, name: string) {
    MatchesJsGlob(name) && NodeAt(fs, JsPath(dir, name)).File?
  }

  /** What the single-file branch derives from a path before it decides: handle, minified flag and URL. */
  datatype Script = Script(handle: string, minified: bool, url: string)

  function ScriptOf(site: Site, path: string): Script {
    Script(HandleOf(path), Minified(path), ScriptUrl(site, path))
  }

  /**
   * The decision of the single-file branch on a derived script: a
   * minified script whose handle is registered is refused in debug mode;
   * anything else is registered with the metadata as given.
   */
  function Admit(host: Host, s: Script, deps: Dependencies, version: Meta<Version>, footer: Meta<bool>): Step {
    if s.minified && host.debug && s.handle in host.registered then
      Step(Fail, host)
    else
      Step(Handle(s.handle), Host(host.registered + {s.handle}, host.debug,
                                  host.calls + [Registration(s.handle, s.url, deps, version, footer)]))
  }

  /**
   * Registration of one regular file. A minified file is refused, and
   * nothing changes, exactly when debug mode is on and its handle is
   * already registered; otherwise one registration call is made under the
   * file's handle, with its URL and the metadata as given, and the handle
   * is returned.
   */
  function RegisterFile(site: Site, host: Host, path: string, deps: Dependencies, version: Meta<Version>, footer: Meta<bool>): (r: Step)
    ensures r.result.Fail? <==> Shadowed(host, path)
    ensures r.result.Fail? ==> r.host == host
    ensures !r.result.Fail? ==> r.result == Handle(HandleOf(path))
    ensures !r.result.Fail? ==> r.host.registered == host.registered + {HandleOf(path)}
    ensures !r.result.Fail? ==> r.host.calls == host.calls + [Registration(HandleOf(path), ScriptUrl(site, path), deps, version, footer)]
    ensures r.host.debug == host.debug
  {
    Admit(host, ScriptOf(site, path), deps, version, footer)
  }

  /** A listed file as directory mode sees it: its per-file metadata key and its derived script. */
  datatype Entry = Entry(key: string, script: Script)

  function EntryOf(site: Site, dir: string, name: string): Entry {
    var file := JsPath(dir, name);
    Entry(FileKey(file), ScriptOf(site, file))
  }

  /** The entries of the eligible names of a listing, in listing order. */
  function Entries(fs: FileSystem, site: Site, dir: string, names: seq<string>): (es: seq<Entry>)
    ensures |es| <= |names|
  {
    FilterMap((n: string) => Eligible(fs, dir, n), (n: string) => EntryOf(site, dir, n), names)
  }

  /**
   * Registration of a path: a directory registers its scripts, a regular
   * file registers itself, anything else does nothing and yields `Null`.
   * Directory mode reaches each listed file through a recursive
   * registration of its path, which takes the single-file branch because
   * a regular file is not a directory; here that branch is `Admit` on the
   * file's derived script.
   */
  function Register(fs: FileSystem, site: Site, host: Host, path: string, deps: Dependencies, version: Meta<Version>, footer: Meta<bool>): (r: Step)
    ensures r.host.debug == host.debug
    ensures NodeAt(fs, path).Missing? ==> r == Step(Null, host)
    ensures NodeAt(fs, path).File? ==> r.result.Handle? || r.result.Fail?
    ensures NodeAt(fs, path).Dir? ==> r.result.Handles? && NoDuplicates(r.result.names)
  {
    match NodeAt(fs, path)
    case Dir(listing) =>
      var each := RegisterEach(host, Entries(fs, site, path, listing), ClassifyDependencies(deps), version, footer);
      Step(Handles(Unique(each.0)), each.1)
    case File =>
      RegisterFile(site, host, path, deps, version, footer)
    case Missing =>
      Step(Null, host)
  }

  /**
   * Directory mode over the entries of a listing, in order: each entry is
   * registered with its own metadata, resolved under its key, refusals
   * are skipped, and the handles of the others are collected.
   */
  function RegisterEach(host: Host, entries: seq<Entry>,
                        deps: Meta<Dependencies>, version: Meta<Version>, footer: Meta<bool>): (r: (seq<string>, Host))
    ensures r.1.debug == host.debug
    ensures forall h :: h in r.1.registered <==> h in host.registered || h in r.0
    ensures |r.0| <= |entries|
    decreases |entries|
  {
    if entries == [] then ([], host)
    else
      var e := entries[0];
      var step := Admit(host, e.script,
                        Resolve(deps, e.key, []),
                        Global(Resolve(version, e.key, Unversioned)),
                        Global(Resolve(footer, e.key, false)));
      var rest := RegisterEach(step.host, entries[1..], deps, version, footer);
      if step.result.Fail? then rest else ([step.result.name] + rest.0, rest.1)
  }
}

=== FILE: separators.dfy ===
/**
 * Separator normalisation of a relative script path before it becomes a
 * URL: every run of '/' and '\' characters is replaced by one '/'.
 */
module Separators {

  predicate IsSeparator(c: char) {
    c == '/' || c == '\\'
  }

  /** `s` holds no '\' and no two consecutive '/'. */
  predicate Collapsed(s: string) {
    && (forall i | 0 <= i < |s| :: s[i] != '\\')
    && (forall i | 0 <= i < |s| - 1 :: s[i] == '/' ==> s[i + 1] != '/')
  }

  /** The characters of `s` that are not separators, in order. */
  function Plain(s: string): (r: string)
    ensures |r| <= |s|
    ensures forall i | 0 <= i < |r| :: !IsSeparator(r[i])
  {
    if s == [] then []
    else if IsSeparator(s[0]) then Plain(s[1..])
    else [s[0]] + Plain(s[1..])
  }

  /** `s` with its leading run of separators removed. */
  function SkipSeparators(s: string): (r: string)
    ensures |r| <= |s| && r == s[|s| - |r|..]
    ensures forall i | 0 <= i < |s| - |r| :: IsSeparator(s[i])
    ensures r == [] || !IsSeparator(r[0])
  {
    if |s| > 0 && IsSeparator(s[0]) then SkipSeparators(s[1..]) else s
  }

  /** The replacement of every maximal run of '/' and '\' in `s` by a single '/'. */
  function CollapseSeparators(s: string): (r: string)
    ensures Collapsed(r)
    ensures |r| <= |s|
    ensures r == [] <==> s == []
    ensures r != [] ==> (r[0] == '/' <==> IsSeparator(s[0]))
    decreases |s|
  {
    if s == [] then []
    else if IsSeparator(s[0]) then "/" + CollapseSeparators(SkipSeparators(s[1..]))
    else [s[0]] + CollapseSeparators(s[1..])
  }

  /** Dropping a leading run of separators drops no plain character. */
  lemma {:induction false} SkipKeepsPlain(s: string)
    ensures Plain(SkipSeparators(s)) == Plain(s)
    decreases |s|
  {
    if |s| > 0 && IsSeparator(s[0]) {
      SkipKeepsPlain(s[1..]);
    }
  }

  /** Normalisation keeps every non-separator character, in order. */
  lemma {:induction false} CollapseKeepsPlain(s: string)
    ensures Plain(CollapseSeparators(s)) == Plain(s)
    decreases |s|
  {
    if s == [] {
    } else if IsSeparator(s[0]) {
      var t := SkipSeparators(s[1..]);
      CollapseKeepsPlain(t);
      SkipKeepsPlain(s[1..]);
      var r := CollapseSeparators(s);
      assert r == "/" + CollapseSeparators(t);
      assert r[1..] == CollapseSeparators(t);
    } else {
      CollapseKeepsPlain(s[1..]);
      var r := CollapseSeparators(s);
      assert r[1..] == CollapseSeparators(s[1..]);
    }
  }

  /** An already normalised path is left exactly as it is. */
  lemma {:induction false} CollapseFixesCollapsed(s: string)
    requires Collapsed(s)
    ensures CollapseSeparators(s) == s
    decreases |s|
  {
    if s != [] {
      var t := s[1..];
      assert Collapsed(t) by {
        forall i | 0 <= i < |t| - 1
          ensures t[i] == '/' ==> t[i + 1] != '/'
        {
          assert t[i] == s[i + 1] && t[i + 1] == s[i + 2];
        }
      }
      CollapseFixesCollapsed(t);
      if IsSeparator(s[0]) {
        assert s[0] == '/';
        if |t| > 0 {
          assert t[0] == s[1];
          assert !IsSeparator(t[0]);
        }
        assert SkipSeparators(t) == t;
        assert CollapseSeparators(s) == "/" + t;
        assert s == [s[0]] + t;
      } else {
        assert s == [s[0]] + t;
      }
    }
  }

  /** The normalisation leaves a path unchanged exactly when it is already normalised. */
  lemma CollapseFixpointIff(s: string)
    ensures CollapseSeparators(s) == s <==> Collapsed(s)
  {
    if Collapsed(s) {
      CollapseFixesCollapsed(s);
    }
  }

  /** Normalising twice is normalising once. */
  lemma CollapseIdempotent(s: string)
    ensures CollapseSeparators(CollapseSeparators(s)) == CollapseSeparators(s)
  {
    CollapseFixesCollapsed(CollapseSeparators(s));
  }

  /** `s` with every '\' turned into '/'. */
  function ToSlash(s: string): (r: string)
    ensures |r| == |s|
  {
    if s == [] then [] else [if IsSeparator(s[0]) then '/' else s[0]] + ToSlash(s[1..])
  }

  /** `s` with every '/' dropped that directly follows another '/'. */
  function Squeeze(s: string): (r: string)
    ensures |r| <= |s|
  {
    if |s| <= 1 then s
    else if s[0] == '/' && s[1] == '/' then Squeeze(s[1..])
    else [s[0]] + Squeeze(s[1..])
  }

  /** A '/' followed by a run of separators squeezes to that one '/'. */
  lemma {:induction false} SqueezeLeadingRun(t: string)
    ensures Squeeze("/" + ToSlash(t)) == "/" + Squeeze(ToSlash(SkipSeparators(t)))
    decreases |t|
  {
    var u := "/" + ToSlash(t);
    if |t| > 0 && IsSeparator(t[0]) {
      SqueezeLeadingRun(t[1..]);
      assert ToSlash(t) == "/" + ToSlash(t[1..]);
      assert u[1..] == ToSlash(t);
    } else if |t| > 0 {
      assert ToSlash(t)[0] == t[0] != '/';
      assert u[1..] == ToSlash(t);
    }
  }

  /**
   * The normalisation agrees with its two-pass reading: turn every '\'
   * into '/', then drop every '/' that follows a '/'.
   */
  lemma {:induction false} CollapseIsSqueezedSlashes(s: string)
    ensures CollapseSeparators(s) == Squeeze(ToSlash(s))
    decreases |s|
  {
    if s != [] {
      var u := ToSlash(s);
      if IsSeparator(s[0]) {
        CollapseIsSqueezedSlashes(SkipSeparators(s[1..]));
        SqueezeLeadingRun(s[1..]);
        assert u == "/" + ToSlash(s[1..]);
      } else {
        CollapseIsSqueezedSlashes(s[1..]);
        assert u == [s[0]] + ToSlash(s[1..]);
        assert u[1..] == ToSlash(s[1..]);
      }
    }
  }
}

=== FILE: sequences.dfy ===
/** Sequence helpers: filtering with a mapping, and prefixes. */
module Sequences {

  /** The images under `f` of the elements of `xs` that `keep` accepts, in order. */
  function FilterMap<A, B>(keep: A -> bool, f: A -> B, xs: seq<A>): (ys: seq<B>)
    ensures |ys| <= |xs|
  {
    if xs == [] then []
    else (if keep(xs[0]) then [f(xs[0])] else []) + FilterMap(keep, f, xs[1..])
  }

  /** An element of the result is the image of an accepted element, and every such image is in the result. */
  lemma {:induction false} FilterMapMembers<A, B>(keep: A -> bool, f: A -> B, xs: seq<A>)
    ensures forall y :: y in FilterMap(keep, f, xs) <==> exists x | x in xs :: keep(x) && y == f(x)
    decreases |xs|
  {
    if xs != [] {
      FilterMapMembers(keep, f, xs[1..]);
      assert xs == [xs[0]] + xs[1..];
      forall y
        ensures y in FilterMap(keep, f, xs) <==> exists x | x in xs :: keep(x) && y == f(x)
      {
        if x :| x in xs && keep(x) && y == f(x) {
          if x != xs[0] {
            assert x in xs[1..];
          }
        }
      }
    }
  }

  /** Nothing accepted, nothing kept. */
  lemma {:induction false} FilterMapNone<A, B>(keep: A -> bool, f: A -> B, xs: seq<A>)
    requires forall x | x in xs :: !keep(x)
    ensures FilterMap(keep, f, xs) == []
    decreases |xs|
  {
    if xs != [] {
      assert xs[0] in xs;
      assert forall x | x in xs[1..] :: x in xs;
      FilterMapNone(keep, f, xs[1..]);
    }
  }

  /** Two accepted elements are both kept, in order. */
  lemma FilterMapPair<A, B>(keep: A -> bool, f: A -> B, x: A, y: A)
    requires keep(x) && keep(y)
    ensures FilterMap(keep, f, [x, y]) == [f(x), f(y)]
  {
    assert [x, y][1..] == [y] && [y][1..] == [];
  }

  /** Splitting a sequence after a prefix `p` of it, one element of which lies past `k`. */
  lemma PrefixSplit<T>(s: seq<T>, p: seq<T>, k: nat)
    requires k < |p| <= |s| && s[..|p|] == p
    ensures s[..k] == p[..k] && s[k] == p[k] && s[k..] == [s[k]] + s[k + 1..]
  {
    assert s[..k] == s[..|p|][..k];
  }
}
